=== FILE: README.md ===
# Emotion dashboard and camera viewer: a Dafny model

This project models the logic at the core of a PyQt desktop application.
The application shows an audio emotion dashboard, a camera overview window
with draggable camera tiles that relay frames through a socket peer, and a
standalone visual emotion detector. The Dafny model covers:

- **Audio** (`audio.dfy`): the background worker copies the speech
  classifier's label-indexed scores into a five-slot raw vector. The slots
  are sad, neutral, angry, happy and other, and the copy goes through a fixed
  remap table in a fixed write order. A 16 ms timer smooths the raw vector
  into the display vector with an exponential moving average
  (0.98 / 0.02). The display is scaled to percentages and clamped into
  five progress bars.
- **Camera tile** (`camera_widget.dfy`): the mouse handlers of the
  draggable, resizable tile form a state machine over the dragging,
  resizing and fullscreen flags. Qt's minimum/maximum widget size is part
  of the model.
- **Frame relay** (`frame_relay.dfy`): one tick of a tile's frame timer.
  The peer's reply is reinterpreted as a 480 x 640 x 3 byte frame. The frame
  is resized to the label, scaled with Qt's keep-aspect rule and centred.
- **Camera window** (`camera_window.dfy`): the one-shot scan of device
  indices 0..9, and the cascade placement of new tiles with the
  process-wide camera-to-socket map.
- **Emotion detection** (`emotion_detection.dfy`, `emotion_ranking.dfy`):
  - the person box, taken from the body detector or derived from a face box
    with truncating integer conversion;
  - the selection of the 26 categories with probability strictly above 0.5;
  - Python's stable descending sort;
  - the drawing calls: a box, a valence caption and at most five emotion
    lines.

`wrappers.dfy` holds `Option` and `geometry.dfy` holds the point, size and
rectangle types shared by the Qt-facing modules. Foreign calls become
inputs:
- devices opening and reading;
- the socket reply;
- the detectors' boxes;
- the networks' probabilities and valence;
- the parent widget's size.

## Model

| member | source | states |
|---|---|---|
| Audio.SlotOf | audio.py:61-65 | every classifier label 0..4 is copied into exactly one display slot: `SlotOf` inverts `Audio.SourceOf`, the remap table (slot 0 from label 2, 1 from 0, 2 from 3, 3 from 1, 4 from 4) |
| Audio.RemapIsBijection | audio.py:61-65 | the label-to-slot remap is a bijection on the five slots: no slot is written twice and no label is dropped |
| Audio.RunCycle | audio.py:59-65 | a worker cycle fails exactly when the classifier returned fewer than five scores; then no slot was written, because the first assignment (label 4) raises; otherwise slot s holds the score of its source label |
| Audio.PartialView | audio.py:61-65 | a display tick racing the worker sees each slot either already updated or still old, and updated exactly for the slots the write order has reached (`Audio.WriteOrder`: slots 4, 0, 1, 3, 2) |
| Audio.NoSlotSurvives | audio.py:61-65 | a successful cycle overwrites every slot, so the previous raw vector has no influence |
| Audio.RemapIsPermutation | audio.py:61-65 | a successful cycle stores a permutation of the first five scores |
| Audio.CycleKeepsUnit | audio.py:45-65 | softmax scores in [0,1] give a raw vector in [0,1] |
| Audio.Blend | audio.py:226 | one moving-average step lies between the previous display value and the raw value, and a value equal to the raw value is a fixed point |
| Audio.Tick | audio.py:226 | per slot, the new display value lies between the old one and the raw one; ticking keeps vectors in [0,1] |
| Audio.SmoothStaysInUnit | audio.py:226 | any number of ticks against raw vectors in [0,1], starting in [0,1], stays in [0,1] |
| Audio.SlotConverges | audio.py:226 | after n ticks against a constant raw value the distance to it is 0.98^n times the initial distance |
| Audio.ConstantRawConverges | audio.py:226 | the same geometric convergence for each slot of the display vector |
| Audio.ClampPercent | audio.py:217 | the bar value lies in [0,100]: equal to the input inside the range, 0 below it and 100 above it |
| Audio.UpdateProgressBars | audio.py:206-218 | a list of other than five values changes no bar; otherwise each bar shows its value clamped into [0,100] |
| Audio.UpdateFrame | audio.py:220-229 | a timer tick smooths the display; while the vectors are in [0,1] the clamp never bites and each bar is 100 times its display slot |
| Audio.RunShowsDisplay | audio.py:220-229 | after any non-empty run of ticks from a display in [0,1], the bars show exactly the smoothed display as percentages |
| Audio.InitialRunShowsDisplay | audio.py:220-229 | from the start-up state (the zero display vector and the placeholder bars 20, 40, ..., 100 set at start-up), after any non-empty run of in-range ticks the display is the smoothed vector and every bar shows it as a percentage |
| Geometry.Clamp | camera_view.py:173 | `max(lo, min(hi, v))` lies in [lo, hi], equals v inside the range and the nearer bound outside it |
| CameraWidget.Bound | camera_view.py:32-33 | a geometry is adjusted into the 320x240 to 1920x1080 size range keeping the position: each side is clamped to the nearer limit (a 2560x1440 request gives 1920x1080); a size already in range is untouched |
| CameraWidget.NewWidget | camera_view.py:28-55 | a new tile is valid and idle, has no saved geometry, and keeps a requested in-range size |
| CameraWidget.MoveTo | camera_view.py:348 | moving changes only the position: the result is the tile with its geometry moved to the point and every other field (flags, press data, saved geometry, cursor) unchanged; it keeps the tile valid |
| CameraWidget.HandleIsBottomRightCorner | camera_view.py:159-160 | the resize handle is exactly the last 20 columns and rows of the tile, inside the tile |
| CameraWidget.ResizeTo | camera_view.py:172-175 | the dragged size is the press-time size plus the pointer's travel, each side clamped into the size range |
| CameraWidget.MousePress | camera_view.py:156-166 | a left press in the handle starts a resize and records the start point and size; any other left press starts a drag and records the offset; other buttons change nothing; a press never changes the geometry, the fullscreen state, the saved geometry or the cursor |
| CameraWidget.MouseMove | camera_view.py:168-182 | a drag (checked first) moves the tile with the pointer at constant size; a resize only changes the size, to the clamped travel since the press; when idle only the cursor changes, showing the diagonal shape exactly over the handle; the press offset, the resize start point and the press-time size are never changed, nor the cursor during a drag or resize |
| CameraWidget.MouseRelease | camera_view.py:184-186 | a release ends both drag and resize and changes nothing else: geometry, fullscreen state, saved geometry, press offset, resize start point, press-time size and cursor are kept |
| CameraWidget.MouseDoubleClick | camera_view.py:103-116 | a left double-click flips fullscreen; entering saves the geometry and fills the parent; leaving restores the saved geometry when it is truthy; the drag and resize flags, the press offset, the resize start point, the press-time size and the cursor are never changed |
| CameraWidget.FullscreenRoundTrip | camera_view.py:103-116 | two left double-clicks from normal mode restore the original geometry, whatever the parent's size |
| CameraWidget.Handle | camera_view.py:103-186 | every mouse handler keeps the tile valid: the size stays in range, and fullscreen always has a saved geometry |
| CameraWidget.EventsKeepValid | camera_view.py:32-33 | the size stays within the minimum and maximum over any event sequence |
| CameraWidget.ResizeGesture | camera_view.py:156-186 | press in the handle, move, release: same position, clamped dragged size, idle afterwards |
| CameraWidget.DragNeverResizes | camera_view.py:168-170 | over any series of moves during a drag the tile keeps its size, the press offset and the drag, and is shifted by the summed pointer travel relative to the press point |
| FrameRelay.ReplyHoldsOneFrame | camera_view.py:127 | the receive buffer size 230400*4 is exactly one 480x640x3 frame |
| FrameRelay.Offset | camera_view.py:127 | the row-major offset of every pixel channel lies inside the frame's bytes |
| FrameRelay.OffsetSplit | camera_view.py:127 | division and remainder recover row, column and channel from an offset |
| FrameRelay.OffsetCovers | camera_view.py:127 | every byte of the reply is the offset of some pixel channel |
| FrameRelay.Decode | camera_view.py:127 | the reshape succeeds exactly for a reply of 921600 bytes, giving a 480x640x3 frame whose channel k of pixel (r,c) is byte (r*640+c)*3+k |
| FrameRelay.Encode | camera_view.py:127 | the byte string of a 480x640x3 frame is one frame's worth of bytes, laid out row-major (its contents are pinned by the two round trips) |
| FrameRelay.DecodeEncode | camera_view.py:127 | decoding the bytes of a frame gives the frame back |
| FrameRelay.EncodeDecode | camera_view.py:127 | re-encoding a decoded reply gives the reply back |
| FrameRelay.ScaleKeepAspect | camera_view.py:136-141 | the keep-aspect size fits the target and touches one of its sides: the full target height is kept exactly when target height x source width < (target width + 1) x source height, that is when the width it implies, rounded down, fits; then the width is that rounded-down width, otherwise the full target width with the height the aspect ratio gives, rounded down; a source of the target's size is unchanged |
| FrameRelay.PixmapScaled | camera_view.py:136-141 | `QPixmap.scaled`: a null source or an empty target gives a null 0x0 pixmap; otherwise the picture fits the target, touches one of its sides, and is the keep-aspect size with each side raised to at least one pixel (a 1x1000 source in a 100x100 target gives 1x100); a source of the target's size is unchanged |
| FrameRelay.CenterOffsets | camera_view.py:149-150 | the offsets are `(W - w) // 2` and `(H - h) // 2` in every case (twice the offset is W - w rounded down to even); a picture that fits is drawn inside the canvas with margins differing by at most one pixel; a larger picture gets a negative offset |
| FrameRelay.UpdateFrame | camera_view.py:118-154 | nothing happens unless the device is open and read a frame; a reply of the wrong length is rejected; otherwise the decoded reply is drawn at label size from the canvas origin |
| CameraWindow.FindCameras | camera_view.py:214-223 | the result lists, strictly increasing, exactly the indices below 10 that opened and gave a frame; every opened device is released |
| CameraWindow.CascadePosition | camera_view.py:348 | tiles are placed on the diagonal at least 50 pixels from the corner |
| CameraWindow.CascadeIsInjective | camera_view.py:348 | successive tiles are 30 pixels apart diagonally, so distinct tiles start at distinct positions |
| CameraWindow.AddCamera | camera_view.py:343-350 | opening a camera appends one valid, idle tile at the cascade position for the tile count, keeps earlier tiles, and maps the camera id to the new connection; all other socket entries are kept |
| CameraWindow.AddAllCascades | camera_view.py:343-350 | opening several cameras in turn places the k-th new tile at cascade position k and keeps all earlier tiles |
| CameraWindow.CascadeTilesDistinct | camera_view.py:348 | tiles opened from an empty window all start at different geometries |
| EmotionRanking.Insert | emotion_detection.py:129 | inserting after all entries of at least equal probability keeps the list ranked and adds exactly the new entry |
| EmotionRanking.SortByProbDesc | emotion_detection.py:129 | the stable descending sort is a permutation of its input, highest probability first, ties in category order |
| EmotionRanking.RankedIsUnique | emotion_detection.py:129 | two ranked arrangements of the same entries are equal, so any correct stable descending sort agrees with this one |
| EmotionRanking.RankedIsNonIncreasing | emotion_detection.py:129 | along a ranked list probabilities never increase |
| EmotionDetection.CategoryTableMatchesHead | emotion_detection.py:66-71 | the name table has one entry per output of the 26-wide categorical layer |
| EmotionDetection.NamesDistinct | emotion_detection.py:66-71 | no two categories share a name |
| EmotionDetection.TruncDiv | emotion_detection.py:97-98 | `int(a / d)` truncates toward zero: for a >= 0 it is the floor and for a < 0 the ceiling of the quotient |
| EmotionDetection.BodyFromFace | emotion_detection.py:93-101 | the derived body box is 4 face-heights tall and 1.5 face-widths wide, rounded toward zero; it starts at the bottom of the face unless that is below the frame, and at `max(0, x - int(w/4))`: positive exactly when 4x > w, and then a quarter face-width, rounded down, left of the face |
| EmotionDetection.DetectPerson | emotion_detection.py:80-103 | no box exactly when neither detector found anything; otherwise the first body, or else the box derived from the first face |
| EmotionDetection.Selected | emotion_detection.py:124-127 | the scan keeps, in category order, exactly the categories with probability strictly above 0.5, each with its probability |
| EmotionDetection.TopEmotions | emotion_detection.py:124-129 | the ranked selection holds exactly the categories above 0.5, highest first, ties in category order |
| EmotionDetection.NamedExactly | emotion_detection.py:127 | a (name, probability) pair is reported exactly when its category was selected |
| EmotionDetection.DetectEmotions | emotion_detection.py:123-131 | a category's (name, probability) pair is reported iff its probability exceeds 0.5 (0.5 itself is not enough); every reported probability exceeds 0.5; pairs are in non-increasing probability order (that each pair is one category's name with that category's probability is `EmotionDetection.DetectedPairIsCategory`) |
| EmotionDetection.DetectedPairIsCategory | emotion_detection.py:125-127 | every reported pair is one category's name together with that category's probability: the pair at position k is that of the k-th category of the ranked selection |
| EmotionDetection.TiesKeepCategoryOrder | emotion_detection.py:129 | equally probable emotions are listed in category order |
| EmotionDetection.EmotionLines | emotion_detection.py:153-157 | one text line per emotion, each 20 pixels below the previous one |
| EmotionDetection.DrawResults | emotion_detection.py:133-157 | nothing is drawn without a box; otherwise the box, the valence 10 pixels above it, and at most five emotion lines starting 10 right of and 30 below its corner |
| EmotionDetection.Annotate | emotion_detection.py:169-176 | a frame gets drawing calls exactly when a person was found; the lines drawn are the first (at most five) entries of the detected emotions |
| EmotionDetection.DrawnLinesAreAboveThreshold | emotion_detection.py:169-176 | every emotion line drawn names a category whose probability exceeds 0.5, with that probability |
| EmotionDetection.DrawnAreMostLikely | emotion_detection.py:153 | no detected emotion left off the frame is more likely than one that is drawn |

Notes on what the code does:
- The socket map is the module-level `active_sockets` (camera_view.py:24,
  346). The per-window `self.active_sockets` (camera_view.py:207) is never
  used.
- Opening the same camera twice replaces its connection.
- `update_frame` resizes the decoded frame to the label before the
  keep-aspect scaling (camera_view.py:129). So the scaled picture always
  has the label's size, and `FrameRelay.UpdateFrame` proves the centring
  offsets are (0, 0).
- Qt keeps a widget's geometry within its minimum and maximum size, so
  the fullscreen geometry (camera_view.py:110) is bounded to 1920x1080 as
  well (`CameraWidget.Bound`).

## Left out

- Loading and running the neural networks, audio recording (`sounddevice`), the cascade detectors and image preprocessing: foreign code. Their outputs are parameters.
- Threads and timers: the worker loop and the display timer are modelled as separate steps. `Audio.PartialView` covers a tick that interleaves with a cycle. Atomicity of numpy element writes is assumed.
- Starting the peer process (`start.bat`), `accept`, `send` and `recv`: I/O. The reply bytes and the connection handle are inputs. A short `recv` (an ordinary event on a stream socket) shows up as a reply of the wrong length.
- FrameRelay.UpdateFrame: a wrong-length reply is the outcome `BadReply`. In the code the `reshape` ValueError (camera_view.py:127) is not caught in `update_frame` and escapes the timer slot; under PyQt5's default handling of an uncaught exception in a slot (since PyQt5 5.5) this aborts the application. What happens after that exception is not modelled.
- The echo `client_handler` (camera_view.py:14-22): it is never started by the core; it is socket I/O only.
- `closeEvent` of the tile and of the window: they only stop timers and release devices and sockets.
- Qt layout, styling, painting and the OpenCV colour conversions and resize interpolation: pixel values after `cv2.resize` are not modelled, only sizes and positions.
- Audio.RunCycle: scores are reals, not float32; the rounding of `round(score, 5)` is not modelled.
- Audio.UpdateProgressBars: bars hold reals and the model assumes `QProgressBar.setValue` accepts the clamped float value (as with Python before 3.10, where it is truncated to an int). From Python 3.10 on, PyQt5's int parameter rejects a `numpy.float32` with a TypeError raised inside the 16 ms timer slot (audio.py:218); that failure is not modelled.
- Audio.Blend: the step is computed over reals. The code keeps `outemotions` in float32 (audio.py:52, 226), where `0.98*v + 0.02*v` can differ from `v` in the last bit, so the fixed point holds over reals only.
- Audio.Tick: the per-slot betweenness and the fixed point hold over reals; float32 rounding (audio.py:226) can step one unit past either end.
- Audio.SlotConverges: the exact 0.98^n distance holds over reals; in float32 the display stops short of the raw value (starting from 0 toward 1 it stalls just below 1).
- Audio.ConstantRawConverges: as for `Audio.SlotConverges`, the geometric convergence is a statement about real arithmetic, not float32.
- `print` diagnostics and the labels' and buttons' texts. `EmotionDetection.Caption` holds the exact valence and probability; the drawn text rounds both to two decimals (`:.2f`, emotion_detection.py:148 and 154), and that formatting is not modelled.
- The frame sent to the peer (`frame_rgb.tobytes()`, camera_view.py:126) has whatever size the device delivers; only the 480x640x3 reply is modelled.
- `main.py`, the launcher window that opens the other windows: user-interface wiring outside the modelled core.
- The main capture loop of the emotion detector (`cv2.VideoCapture`, `imshow`, `waitKey`): I/O. One pass is `EmotionDetection.Annotate`.

=== FILE: audio.dfy ===
/**
 The audio emotion pipeline. A background worker copies the classifier's
 label-indexed scores into a five-slot raw vector whose slots are, in display
 order, sad, neutral, angry, happy and other. A 16 ms display timer smooths
 the raw vector into a display vector by an exponential moving average,
 scales it to percentages and clamps it into five progress bars.

 Scores and vectors are `real` here; the Python code keeps them in float32 arrays.
 */
module Audio {

  /** A five-slot emotion vector in display order: sad, neutral, angry, happy, other. */
  type Vec = v: seq<real> | |v| == 5 witness [0.0, 0.0, 0.0, 0.0, 0.0]

  /** Both process-wide vectors start out as five zeros. */
  const Zeros: Vec := [0.0, 0.0, 0.0, 0.0, 0.0]

  predicate InUnit(v: seq<real>) {
    forall i :: 0 <= i < |v| ==> 0.0 <= v[i] <= 1.0
  }

  // ---------------------------------------------------------------------------
  // Label-to-slot remap
  // ---------------------------------------------------------------------------

  /** The classifier label whose score display slot `slot` receives. */
  function SourceOf(slot: nat): (index: nat)
    requires slot < 5
    ensures index < 5
  {
    if slot == 0 then 2
    else if slot == 1 then 0
    else if slot == 2 then 3
    else if slot == 3 then 1
    else 4
  }

  /** The display slot that classifier label `index` is copied into: the
      inverse of `SourceOf`. */
  function SlotOf(index: nat): (slot: nat)
    requires index < 5
    ensures slot < 5 && SourceOf(slot) == index
  {
    if index == 0 then 1
    else if index == 1 then 3
    else if index == 2 then 0
    else if index == 3 then 2
    else 4
  }

  /** The remap table is a bijection on {0..4}: every slot is written from
      exactly one label and every label is read for exactly one slot. */
  lemma RemapIsBijection()
    ensures forall s :: 0 <= s < 5 ==> SlotOf(SourceOf(s)) == s
    ensures forall l :: 0 <= l < 5 ==> SourceOf(SlotOf(l)) == l
    ensures forall s, t :: 0 <= s < 5 && 0 <= t < 5 && s != t ==> SourceOf(s) != SourceOf(t)
  {
  }

  /** The slot written by the `k`-th assignment of one cycle, in the order the
      worker performs them. */
  function WriteOrder(k: nat): (slot: nat)
    requires k < 5
    ensures slot < 5
  {
    if k == 0 then 4
    else if k == 1 then 0
    else if k == 2 then 1
    else if k == 3 then 3
    else 2
  }

  /** The slots written by the first `k` assignments of a cycle. */
  function Written(k: nat): set<nat>
    requires k <= 5
  {
    set j | 0 <= j < k :: WriteOrder(j)
  }

  /** What one worker cycle leaves behind: the raw vector, and whether an
      assignment raised (the score list was too short), which ends the worker. */
  datatype Cycle = Cycle(raw: Vec, failed: bool)

  /** Performs assignments `k`..4 of a cycle on `raw`. Reading a label the
      score list does not have raises before the assignment happens. */
  function WriteFrom(raw: Vec, scores: seq<real>, k: nat): Cycle
    requires k <= 5
    decreases 5 - k
  {
    if k == 5 then Cycle(raw, false)
    else
      var slot := WriteOrder(k);
      var index := SourceOf(slot);
      if index < |scores| then WriteFrom(raw[slot := scores[index]], scores, k + 1)
      else Cycle(raw, true)
  }

  /** The raw vector as a concurrent reader sees it after the first `k`
      assignments of a cycle. */
  function Partial(raw: Vec, scores: seq<real>, k: nat): Vec
    requires |scores| >= 5 && k <= 5
  {
    if k == 0 then raw
    else
      var slot := WriteOrder(k - 1);
      Partial(raw, scores, k - 1)[slot := scores[SourceOf(slot)]]
  }

  /** A reader racing the worker sees, slot by slot, either the new score or
      the previous value: the new one exactly for the slots already written. */
  lemma {:induction false} PartialView(raw: Vec, scores: seq<real>, k: nat)
    requires |scores| >= 5 && k <= 5
    ensures forall s :: 0 <= s < 5 ==>
      Partial(raw, scores, k)[s] == (if s in Written(k) then scores[SourceOf(s)] else raw[s])
  {
    if k > 0 {
      PartialView(raw, scores, k - 1);
      assert Written(k) == Written(k - 1) + {WriteOrder(k - 1)};
    }
  }

  lemma {:induction false} WriteFromPartial(raw: Vec, scores: seq<real>, k: nat)
    requires |scores| >= 5 && k <= 5
    ensures WriteFrom(Partial(raw, scores, k), scores, k) == Cycle(Partial(raw, scores, 5), false)
    decreases 5 - k
  {
    if k < 5 {
      WriteFromPartial(raw, scores, k + 1);
    }
  }

  lemma AllSlotsWritten()
    ensures forall s :: 0 <= s < 5 ==> s in Written(5)
  {
    assert WriteOrder(0) == 4 && WriteOrder(1) == 0 && WriteOrder(2) == 1;
    assert WriteOrder(3) == 3 && WriteOrder(4) == 2;
  }

  /** One iteration of the worker loop once the classifier has answered.
      With at least five scores every slot receives its label's score; with
      fewer, the very first assignment (label 4, the highest) raises, so no
      slot is touched. */
  function RunCycle(raw: Vec, scores: seq<real>): (c: Cycle)
    ensures c.failed <==> |scores| < 5
    ensures c.failed ==> c.raw == raw
    ensures !c.failed ==> forall s :: 0 <= s < 5 ==> c.raw[s] == scores[SourceOf(s)]
  {
    if |scores| >= 5 then
      WriteFromPartial(raw, scores, 0);
      PartialView(raw, scores, 5);
      AllSlotsWritten();
      WriteFrom(raw, scores, 0)
    else
      WriteFrom(raw, scores, 0)
  }

  /** A successful cycle overwrites every slot: the previous raw vector has no
      influence on the result. */
  lemma NoSlotSurvives(a: Vec, b: Vec, scores: seq<real>)
    requires |scores| >= 5
    ensures RunCycle(a, scores) == RunCycle(b, scores)
  {
    var ra, rb := RunCycle(a, scores).raw, RunCycle(b, scores).raw;
    assert forall s :: 0 <= s < 5 ==> ra[s] == rb[s];
  }

  /** Exchanging two neighbours keeps the multiset of a sequence. */
  lemma SwapKeepsMultiset(s: seq<real>, t: seq<real>, i: nat)
    requires i + 1 < |s| == |t|
    requires t[i] == s[i + 1] && t[i + 1] == s[i]
    requires forall j :: 0 <= j < |s| && j != i && j != i + 1 ==> t[j] == s[j]
    ensures multiset(t) == multiset(s)
  {
    assert s == s[..i] + [s[i], s[i + 1]] + s[i + 2..];
    assert t == s[..i] + [s[i + 1], s[i]] + s[i + 2..];
  }

  /** A successful cycle stores a permutation of the first five scores. */
  lemma RemapIsPermutation(raw: Vec, scores: seq<real>)
    requires |scores| >= 5
    ensures multiset(RunCycle(raw, scores).raw) == multiset(scores[..5])
  {
    var r := RunCycle(raw, scores).raw;
    var s0 := scores[..5];
    assert r[0] == s0[2] && r[1] == s0[0] && r[2] == s0[3] && r[3] == s0[1] && r[4] == s0[4] by {
      assert SourceOf(0) == 2 && SourceOf(1) == 0 && SourceOf(2) == 3;
      assert SourceOf(3) == 1 && SourceOf(4) == 4;
    }
    // [a b c d e] -> [a c b d e] -> [c a b d e] -> [c a d b e]
    var s1 := s0[1 := s0[2]][2 := s0[1]];
    SwapKeepsMultiset(s0, s1, 1);
    var s2 := s1[0 := s1[1]][1 := s1[0]];
    SwapKeepsMultiset(s1, s2, 0);
    var s3 := s2[2 := s2[3]][3 := s2[2]];
    SwapKeepsMultiset(s2, s3, 2);
    assert r == s3;
  }

  /** Scores in [0,1] (softmax output) give a raw vector in [0,1]. */
  lemma CycleKeepsUnit(raw: Vec, scores: seq<real>)
    requires InUnit(raw) && InUnit(scores)
    ensures InUnit(RunCycle(raw, scores).raw)
  {
  }

  // ---------------------------------------------------------------------------
  // Exponential moving average
  // ---------------------------------------------------------------------------

  /** Weight kept from the previous display value. */
  const Keep: real := 0.98

  /** Smoothing factor: weight of the current raw value. */
  const Alpha: real := 0.02

  /** One slot of the moving average: a convex combination of the previous
      display value and the raw value, so it lies between them. */
  function Blend(prev: real, raw: real): (r: real)
    ensures prev <= raw ==> prev <= r <= raw
    ensures raw <= prev ==> raw <= r <= prev
    ensures prev == raw ==> r == prev
  {
    prev * Keep + raw * Alpha
  }

  /** One display tick applied to every slot. */
  function Tick(display: Vec, raw: Vec): (next: Vec)
    ensures forall s :: 0 <= s < 5 ==>
      (display[s] <= raw[s] ==> display[s] <= next[s] <= raw[s]) &&
      (raw[s] <= display[s] ==> raw[s] <= next[s] <= display[s])
    ensures display == raw ==> next == display
    ensures InUnit(display) && InUnit(raw) ==> InUnit(next)
  {
    seq(5, s requires 0 <= s < 5 => Blend(display[s], raw[s]))
  }

  /** The display vector after one tick per raw snapshot in `raws`, oldest first. */
  function Smooth(display: Vec, raws: seq<Vec>): Vec
    decreases |raws|
  {
    if raws == [] then display else Smooth(Tick(display, raws[0]), raws[1..])
  }

  predicate AllInUnit(raws: seq<Vec>) {
    forall k :: 0 <= k < |raws| ==> InUnit(raws[k])
  }

  /** If every raw snapshot lies in [0,1], so does the display vector at every
      tick; in particular from the initial zero vector. */
  lemma {:induction false} SmoothStaysInUnit(display: Vec, raws: seq<Vec>)
    requires InUnit(display) && AllInUnit(raws)
    ensures InUnit(Smooth(display, raws))
    decreases |raws|
  {
    if raws != [] {
      SmoothStaysInUnit(Tick(display, raws[0]), raws[1..]);
    }
  }

  function Pow(b: real, n: nat): real {
    if n == 0 then 1.0 else b * Pow(b, n - 1)
  }

  /** `n` ticks against a raw vector that does not change. */
  function Iterate(display: Vec, raw: Vec, n: nat): Vec {
    if n == 0 then display else Tick(Iterate(display, raw, n - 1), raw)
  }

  /** `n` ticks of a single slot against a constant raw value. */
  function IterateSlot(prev: real, raw: real, n: nat): real {
    if n == 0 then prev else Blend(IterateSlot(prev, raw, n - 1), raw)
  }

  lemma {:induction false} IterateBySlot(display: Vec, raw: Vec, n: nat, s: nat)
    requires s < 5
    ensures Iterate(display, raw, n)[s] == IterateSlot(display[s], raw[s], n)
  {
    if n > 0 {
      IterateBySlot(display, raw, n - 1, s);
    }
  }

  /** For one slot: after `n` ticks the distance to the raw value is 0.98^n
      times the initial distance. */
  lemma {:induction false} SlotConverges(prev: real, raw: real, n: nat)
    ensures raw - IterateSlot(prev, raw, n) == Pow(Keep, n) * (raw - prev)
  {
    if n > 0 {
      SlotConverges(prev, raw, n - 1);
      var x, p, e := IterateSlot(prev, raw, n - 1), Pow(Keep, n - 1), raw - prev;
      assert raw - x == p * e;
      assert raw - IterateSlot(prev, raw, n) == Keep * (raw - x);
      assert Keep * (p * e) == (Keep * p) * e;
    }
  }

  /** Against a constant raw vector the distance to it shrinks by the factor
      0.98 per tick: after `n` ticks slot `s` is 0.98^n times its initial
      distance away from the raw value. */
  lemma {:induction false} ConstantRawConverges(display: Vec, raw: Vec, n: nat, s: nat)
    requires s < 5
    ensures raw[s] - Iterate(display, raw, n)[s] == Pow(Keep, n) * (raw[s] - display[s])
  {
    IterateBySlot(display, raw, n, s);
    SlotDistance(Iterate(display, raw, n), display, raw, n, s);
  }

  /** A vector whose slot `s` was reached by `n` blend steps is 0.98^n times
      the initial distance away from the raw value there. */
  lemma SlotDistance(v: Vec, display: Vec, raw: Vec, n: nat, s: nat)
    requires s < 5 && v[s] == IterateSlot(display[s], raw[s], n)
    ensures raw[s] - v[s] == Pow(Keep, n) * (raw[s] - display[s])
  {
    SlotConverges(display[s], raw[s], n);
  }

  // ---------------------------------------------------------------------------
  // Progress bars
  // ---------------------------------------------------------------------------

  function RMin(a: real, b: real): real { if a <= b then a else b }

  function RMax(a: real, b: real): real { if a >= b then a else b }

  /** `max(0, min(100, value))`. */
  function ClampPercent(v: real): (r: real)
    ensures 0.0 <= r <= 100.0
    ensures 0.0 <= v <= 100.0 ==> r == v
    ensures v < 0.0 ==> r == 0.0
    ensures v > 100.0 ==> r == 100.0
  {
    RMax(0.0, RMin(100.0, v))
  }

  /** The bars' initial values, (i + 1) * 20 for bar i. */
  const InitialBars: Vec := [20.0, 40.0, 60.0, 80.0, 100.0]

  /** Sets bar i to values[i] clamped into [0,100]; a list that does not hold
      exactly five values is rejected and no bar changes. */
  function UpdateProgressBars(bars: Vec, values: seq<real>): (r: Vec)
    ensures |values| != 5 ==> r == bars
    ensures |values| == 5 ==> forall i :: 0 <= i < 5 ==>
      && 0.0 <= r[i] <= 100.0
      && (0.0 <= values[i] <= 100.0 ==> r[i] == values[i])
      && (values[i] < 0.0 ==> r[i] == 0.0)
      && (values[i] > 100.0 ==> r[i] == 100.0)
  {
    if |values| != 5 then bars
    else seq(5, i requires 0 <= i < 5 => ClampPercent(values[i]))
  }

  /** The display vector as percentages. */
  function Percent(v: Vec): Vec {
    seq(5, i requires 0 <= i < 5 => v[i] * 100.0)
  }

  /** The state the display timer updates: the smoothed vector and the bars. */
  datatype Dashboard = Dashboard(display: Vec, bars: Vec)

  const InitialDashboard: Dashboard := Dashboard(Zeros, InitialBars)

  /** One display tick: smooth, then show the smoothed values as percentages.
      While both vectors lie in [0,1] the clamp never bites, so each bar shows
      exactly 100 times its display slot. */
  function UpdateFrame(d: Dashboard, raw: Vec): (next: Dashboard)
    ensures next.display == Tick(d.display, raw)
    ensures InUnit(d.display) && InUnit(raw) ==>
      InUnit(next.display) && next.bars == Percent(next.display)
  {
    var display := Tick(d.display, raw);
    Dashboard(display, UpdateProgressBars(d.bars, Percent(display)))
  }

  /** The dashboard after one display tick per raw snapshot, oldest first. */
  function Run(d: Dashboard, raws: seq<Vec>): Dashboard
    decreases |raws|
  {
    if raws == [] then d else Run(UpdateFrame(d, raws[0]), raws[1..])
  }

  /** From any display vector in [0,1], after at least one tick against raw
      snapshots in [0,1], the display stays in [0,1], equals the smoothed
      vector, and every bar equals 100 times its display slot. */
  lemma {:induction false} RunShowsDisplay(d: Dashboard, raws: seq<Vec>)
    requires InUnit(d.display) && AllInUnit(raws) && |raws| > 0
    ensures InUnit(Run(d, raws).display)
    ensures Run(d, raws).bars == Percent(Run(d, raws).display)
    ensures Run(d, raws).display == Smooth(d.display, raws)
    decreases |raws|
  {
    if |raws| > 1 {
      RunShowsDisplay(UpdateFrame(d, raws[0]), raws[1..]);
    }
  }
  /** From the dashboard as the application starts it (display zero, bars at
      20, 40, ..., 100), the first tick replaces the placeholder bar values:
      afterwards every bar shows the smoothed display as a percentage. */
  lemma InitialRunShowsDisplay(raws: seq<Vec>)
    requires AllInUnit(raws) && |raws| > 0
    ensures Run(InitialDashboard, raws).display == Smooth(Zeros, raws)
    ensures Run(InitialDashboard, raws).bars == Percent(Smooth(Zeros, raws))
  {
    assert InUnit(InitialDashboard.display);
    RunShowsDisplay(InitialDashboard, raws);
  }

}

=== FILE: camera_widget.dfy ===
/**
 The draggable, resizable camera tile. Its mouse handlers form a small state
 machine over two interaction flags (dragging, resizing) and a fullscreen
 flag; every handler is a pure function from the widget's state and the
 event's data to the next state. Qt calls become inputs: the event's button
 and positions, and the parent's size for the fullscreen toggle.
 */
module CameraWidget {
  import opened Wrappers
  import opened Geometry

  /** The widget's minimum and maximum size. */
  const MinWidth: int := 320
  const MinHeight: int := 240
  const MaxWidth: int := 1920
  const MaxHeight: int := 1080

  /** Side of the square resize handle in the bottom-right corner. */
  const HandleSize: int := 20

  datatype Button = LeftButton | RightButton | MiddleButton

  datatype Cursor = ArrowCursor | SizeFDiagCursor

  /** The widget state the mouse handlers read and write. `geometry` is the
      position in the parent together with the size. */
  datatype Widget = Widget(
    geometry: Rect,
    dragging: bool,
    offset: Point,
    resizing: bool,
    resizeStart: Point,
    originalSize: Size,
    fullscreen: bool,
    originalGeometry: Option<Rect>,
    cursor: Cursor)

  predicate SizeInBounds(s: Size) {
    MinWidth <= s.w <= MaxWidth && MinHeight <= s.h <= MaxHeight
  }

  /** Qt adjusts any size given to `resize` or `setGeometry` into the range
      set by `setMinimumSize` and `setMaximumSize`. */
  function Bound(r: Rect): (b: Rect)
    ensures b.x == r.x && b.y == r.y && SizeInBounds(b.Extent())
    ensures b.w == Clamp(MinWidth, MaxWidth, r.w) && b.h == Clamp(MinHeight, MaxHeight, r.h)
    ensures SizeInBounds(r.Extent()) ==> b == r
  {
    Rect(r.x, r.y, Clamp(MinWidth, MaxWidth, r.w), Clamp(MinHeight, MaxHeight, r.h))
  }

  /** What every reachable widget state satisfies. */
  predicate Valid(w: Widget) {
    && SizeInBounds(w.geometry.Extent())
    && (w.originalGeometry.Some? ==> SizeInBounds(w.originalGeometry.value.Extent()))
    && (w.fullscreen ==> w.originalGeometry.Some?)
  }

  /** A freshly constructed widget of the given size: no interaction in
      progress, not fullscreen, nothing saved, at the parent's origin. */
  function NewWidget(size: Size): (w: Widget)
    ensures Valid(w)
    ensures !w.dragging && !w.resizing && !w.fullscreen && w.originalGeometry.None?
    ensures w.geometry.x == 0 && w.geometry.y == 0
    ensures SizeInBounds(size) ==> w.geometry.Extent() == size
  {
    Widget(
      geometry := Bound(Rect(0, 0, size.w, size.h)),
      dragging := false,
      offset := Point(0, 0),
      resizing := false,
      resizeStart := Point(0, 0),
      originalSize := Size(-1, -1),
      fullscreen := false,
      originalGeometry := None,
      cursor := ArrowCursor)
  }

  /** `widget.move(x, y)`: repositions without resizing. */
  function MoveTo(w: Widget, p: Point): (r: Widget)
    ensures r.geometry == Rect(p.x, p.y, w.geometry.w, w.geometry.h)
    ensures r == w.(geometry := Rect(p.x, p.y, w.geometry.w, w.geometry.h))
    ensures Valid(w) ==> Valid(r)
  {
    w.(geometry := w.geometry.(x := p.x, y := p.y))
  }

  /** The square resize handle in the widget's own coordinates. */
  function ResizeHandle(w: Widget): Rect {
    Rect(w.geometry.w - HandleSize, w.geometry.h - HandleSize, HandleSize, HandleSize)
  }

  /** The handle covers exactly the last 20 columns and the last 20 rows of
      the widget, both ends included, and lies inside the widget. */
  lemma HandleIsBottomRightCorner(w: Widget, p: Point)
    requires Valid(w)
    ensures ResizeHandle(w).Contains(p) <==>
      w.geometry.w - 20 <= p.x <= w.geometry.w - 1 && w.geometry.h - 20 <= p.y <= w.geometry.h - 1
    ensures ResizeHandle(w).Contains(p) ==> Rect(0, 0, w.geometry.w, w.geometry.h).Contains(p)
  {
  }

  /** The size a resize drag produces: the size at press time plus the
      pointer's travel, each side clamped into the widget's size range. */
  function ResizeTo(original: Size, diff: Point): (s: Size)
    ensures SizeInBounds(s)
    ensures MinWidth <= original.w + diff.x <= MaxWidth ==> s.w == original.w + diff.x
    ensures MinHeight <= original.h + diff.y <= MaxHeight ==> s.h == original.h + diff.y
    ensures original.w + diff.x < MinWidth ==> s.w == MinWidth
    ensures original.w + diff.x > MaxWidth ==> s.w == MaxWidth
    ensures original.h + diff.y < MinHeight ==> s.h == MinHeight
    ensures original.h + diff.y > MaxHeight ==> s.h == MaxHeight
  {
    Size(Clamp(MinWidth, MaxWidth, original.w + diff.x), Clamp(MinHeight, MaxHeight, original.h + diff.y))
  }

  /** mousePressEvent: a left press in the handle starts a resize and records
      the global start point and the current size; any other left press starts
      a drag and records the press point; other buttons are ignored. */
  function MousePress(w: Widget, button: Button, pos: Point, globalPos: Point): (r: Widget)
    ensures button != LeftButton ==> r == w
    ensures r.geometry == w.geometry && r.fullscreen == w.fullscreen
    ensures r.originalGeometry == w.originalGeometry
    ensures r.resizing <==> w.resizing || (button == LeftButton && ResizeHandle(w).Contains(pos))
    ensures r.dragging <==> w.dragging || (button == LeftButton && !ResizeHandle(w).Contains(pos))
    ensures button == LeftButton && ResizeHandle(w).Contains(pos) ==>
      r.resizeStart == globalPos && r.originalSize == w.geometry.Extent() && r.offset == w.offset
    ensures button == LeftButton && !ResizeHandle(w).Contains(pos) ==>
      r.offset == pos && r.resizeStart == w.resizeStart && r.originalSize == w.originalSize
    ensures r.cursor == w.cursor
    ensures Valid(w) ==> Valid(r)
  {
    if button == LeftButton then
      if ResizeHandle(w).Contains(pos) then
        w.(resizing := true, resizeStart := globalPos, originalSize := w.geometry.Extent())
      else
        w.(dragging := true, offset := pos)
    else
      w
  }

  /** mouseMoveEvent. Dragging is tested first: the widget follows the pointer
      (`mapToParent(pos - offset)`) keeping its size. Otherwise, while
      resizing, the size follows the pointer's travel since the press, clamped;
      otherwise only the cursor shape changes over the handle. */
  function MouseMove(w: Widget, pos: Point, globalPos: Point): (r: Widget)
    ensures r.dragging == w.dragging && r.resizing == w.resizing && r.fullscreen == w.fullscreen
    ensures r.originalGeometry == w.originalGeometry
    ensures r.offset == w.offset && r.resizeStart == w.resizeStart && r.originalSize == w.originalSize
    ensures w.dragging || w.resizing ==> r.cursor == w.cursor
    ensures w.dragging ==>
      && r.geometry.Extent() == w.geometry.Extent()
      && r.geometry.x == w.geometry.x + pos.x - w.offset.x
      && r.geometry.y == w.geometry.y + pos.y - w.offset.y
    ensures !w.dragging && w.resizing ==>
      && r.geometry.x == w.geometry.x && r.geometry.y == w.geometry.y
      && r.geometry.Extent() == ResizeTo(w.originalSize,
           Point(globalPos.x - w.resizeStart.x, globalPos.y - w.resizeStart.y))
    ensures !w.dragging && !w.resizing ==>
      && r.geometry == w.geometry
      && (r.cursor == SizeFDiagCursor <==> ResizeHandle(w).Contains(pos))
    ensures Valid(w) ==> Valid(r)
  {
    if w.dragging then
      var topLeft := Point(w.geometry.x + (pos.x - w.offset.x), w.geometry.y + (pos.y - w.offset.y));
      MoveTo(w, topLeft)
    else if w.resizing then
      var diff := Point(globalPos.x - w.resizeStart.x, globalPos.y - w.resizeStart.y);
      var size := ResizeTo(w.originalSize, diff);
      w.(geometry := Bound(w.geometry.(w := size.w, h := size.h)))
    else if ResizeHandle(w).Contains(pos) then
      w.(cursor := SizeFDiagCursor)
    else
      w.(cursor := ArrowCursor)
  }

  /** mouseReleaseEvent: ends both a drag and a resize, whatever the button. */
  function MouseRelease(w: Widget): (r: Widget)
    ensures !r.dragging && !r.resizing
    ensures r.geometry == w.geometry && r.fullscreen == w.fullscreen
    ensures r.originalGeometry == w.originalGeometry
    ensures r.offset == w.offset && r.resizeStart == w.resizeStart && r.originalSize == w.originalSize
    ensures r.cursor == w.cursor
    ensures Valid(w) ==> Valid(r)
  {
    w.(dragging := false, resizing := false)
  }

  /** Python truthiness of the saved geometry: present and not a null QRect. */
  predicate HasSavedGeometry(w: Widget) {
    w.originalGeometry.Some? && !w.originalGeometry.value.IsNull()
  }

  /** mouseDoubleClickEvent: a left double-click toggles fullscreen. Entering
      saves the current geometry and takes the parent's whole rectangle;
      leaving restores the saved geometry. Other buttons are ignored. */
  function MouseDoubleClick(w: Widget, button: Button, parent: Size): (r: Widget)
    ensures button != LeftButton ==> r == w
    ensures button == LeftButton ==> r.fullscreen == !w.fullscreen
    ensures button == LeftButton && !w.fullscreen ==>
      && r.originalGeometry == Some(w.geometry)
      && r.geometry == Bound(Rect(0, 0, parent.w, parent.h))
    ensures button == LeftButton && w.fullscreen ==>
      && r.originalGeometry == w.originalGeometry
      && (HasSavedGeometry(w) ==> r.geometry == w.originalGeometry.value)
      && (!HasSavedGeometry(w) ==> r.geometry == w.geometry)
    ensures r.dragging == w.dragging && r.resizing == w.resizing
    ensures r.offset == w.offset && r.resizeStart == w.resizeStart && r.originalSize == w.originalSize
    ensures r.cursor == w.cursor
    ensures Valid(w) ==> Valid(r)
  {
    if button != LeftButton then w
    else if !w.fullscreen then
      w.(originalGeometry := Some(w.geometry),
         geometry := Bound(Rect(0, 0, parent.w, parent.h)),
         fullscreen := true)
    else
      var restored := if HasSavedGeometry(w) then w.originalGeometry.value else w.geometry;
      w.(geometry := restored, fullscreen := false)
  }

  /** A left double-click followed by another, from a normal (not fullscreen)
      widget, gives back the original geometry and leaves fullscreen, whatever
      the parent's size was. */
  lemma FullscreenRoundTrip(w: Widget, parent: Size, parent': Size)
    requires Valid(w) && !w.fullscreen
    ensures
      var r := MouseDoubleClick(MouseDoubleClick(w, LeftButton, parent), LeftButton, parent');
      && r.geometry == w.geometry
      && !r.fullscreen
      && r == w.(originalGeometry := Some(w.geometry))
  {
    var once := MouseDoubleClick(w, LeftButton, parent);
    assert HasSavedGeometry(once);
  }

  /** The mouse events a camera tile receives. */
  datatype MouseEvent =
    | Press(button: Button, pos: Point, globalPos: Point)
    | Move(pos: Point, globalPos: Point)
    | Release
    | DoubleClick(button: Button, parent: Size)

  function Handle(w: Widget, e: MouseEvent): (r: Widget)
    ensures Valid(w) ==> Valid(r)
  {
    match e
    case Press(b, p, g) => MousePress(w, b, p, g)
    case Move(p, g) => MouseMove(w, p, g)
    case Release => MouseRelease(w)
    case DoubleClick(b, parent) => MouseDoubleClick(w, b, parent)
  }

  function HandleAll(w: Widget, events: seq<MouseEvent>): Widget
    decreases |events|
  {
    if events == [] then w else HandleAll(Handle(w, events[0]), events[1..])
  }

  /** Every state reachable from a new widget is valid: in particular its size
      never leaves [320, 1920] x [240, 1080]. */
  lemma {:induction false} EventsKeepValid(w: Widget, events: seq<MouseEvent>)
    requires Valid(w)
    ensures Valid(HandleAll(w, events))
    decreases |events|
  {
    if events != [] {
      EventsKeepValid(Handle(w, events[0]), events[1..]);
    }
  }

  /** Press in the handle, move, release: the widget ends with the clamped
      size the pointer's travel asks for, at the same position, idle. */
  lemma ResizeGesture(w: Widget, pos: Point, start: Point, end: Point)
    requires Valid(w) && !w.dragging && ResizeHandle(w).Contains(pos)
    ensures
      var r := HandleAll(w, [Press(LeftButton, pos, start), Move(pos, end), Release]);
      && r.geometry.x == w.geometry.x && r.geometry.y == w.geometry.y
      && r.geometry.Extent() == ResizeTo(w.geometry.Extent(), Point(end.x - start.x, end.y - start.y))
      && !r.dragging && !r.resizing
  {
    var w1 := Handle(w, Press(LeftButton, pos, start));
    var w2 := Handle(w1, Move(pos, end));
    var w3 := Handle(w2, Release);
    var es := [Press(LeftButton, pos, start), Move(pos, end), Release];
    assert es[1..] == [Move(pos, end), Release];
    assert es[1..][1..] == [Release];
    calc {
      HandleAll(w, es);
      HandleAll(w1, es[1..]);
      HandleAll(w2, es[1..][1..]);
      HandleAll(w3, es[1..][1..][1..]);
      w3;
    }
  }

  /** The total pointer travel of a series of moves during a drag: each
      move shifts the widget by the pointer's position relative to the
      press point. */
  function DragTravel(moves: seq<MouseEvent>, offset: Point): (t: Point)
    requires forall k :: 0 <= k < |moves| ==> moves[k].Move?
    ensures moves == [] ==> t == Point(0, 0)
    decreases |moves|
  {
    if moves == [] then Point(0, 0)
    else
      var rest := DragTravel(moves[1..], offset);
      Point(moves[0].pos.x - offset.x + rest.x, moves[0].pos.y - offset.y + rest.y)
  }

  /** Any series of moves during a drag keeps the size, the press offset and
      the drag itself, and shifts the widget by the summed pointer travel,
      even if a resize was also started. */
  lemma {:induction false} DragNeverResizes(w: Widget, moves: seq<MouseEvent>)
    requires w.dragging
    requires forall k :: 0 <= k < |moves| ==> moves[k].Move?
    ensures var r := HandleAll(w, moves);
      && r.dragging && r.offset == w.offset
      && r.geometry.Extent() == w.geometry.Extent()
      && r.geometry.x == w.geometry.x + DragTravel(moves, w.offset).x
      && r.geometry.y == w.geometry.y + DragTravel(moves, w.offset).y
    decreases |moves|
  {
    if moves != [] {
      var next := Handle(w, moves[0]);
      assert forall k :: 0 <= k < |moves[1..]| ==> moves[1..][k] == moves[k + 1];
      DragNeverResizes(next, moves[1..]);
    }
  }
}

=== FILE: camera_window.dfy ===
/**
 The camera overview window: the one-shot scan for usable capture devices and
 the placement of each newly opened camera tile. Device probes and socket
 accepts are foreign calls; they become inputs (an "opens" and a "grabs"
 oracle per device index, and the accepted connection's handle).
 */
module CameraWindow {
  import opened Geometry
  import CameraWidget

  /** The scan probes device indices 0 .. ProbeCount - 1. */
  const ProbeCount: nat := 10

  predicate StrictlyIncreasing(s: seq<nat>) {
    forall i, j :: 0 <= i < j < |s| ==> s[i] < s[j]
  }

  /** `find_cameras`: probes indices 0..9 in order. `opens(i)` says whether
      device `i` opened and `grabs(i)` whether its first read gave a frame.
      The result lists, in increasing order, exactly the indices that opened
      and read; `released` lists, in order, every device that was opened, each
      of which the scan releases again. */
  method FindCameras(opens: nat -> bool, grabs: nat -> bool) returns (found: seq<nat>, released: seq<nat>)
    ensures StrictlyIncreasing(found)
    ensures forall c: nat :: c in found <==> c < ProbeCount && opens(c) && grabs(c)
    ensures StrictlyIncreasing(released)
    ensures forall c: nat :: c in released <==> c < ProbeCount && opens(c)
  {
    found, released := [], [];
    var i: nat := 0;
    while i < ProbeCount
      invariant i <= ProbeCount
      invariant StrictlyIncreasing(found) && StrictlyIncreasing(released)
      invariant forall k :: 0 <= k < |found| ==> found[k] < i
      invariant forall k :: 0 <= k < |released| ==> released[k] < i
      invariant forall c: nat :: c in found <==> c < i && opens(c) && grabs(c)
      invariant forall c: nat :: c in released <==> c < i && opens(c)
    {
      if opens(i) {
        if grabs(i) {
          found := found + [i];
        }
        released := released + [i];
      }
      i := i + 1;
    }
  }

  /** An open camera tile: the device it shows and the widget's state. */
  datatype Tile = Tile(cameraId: nat, widget: CameraWidget.Widget)

  /** The window's state. `sockets` is the process-wide map from camera id
      to the accepted connection (a handle). Closed tiles stay in `active`. */
  datatype Window = Window(available: seq<nat>, active: seq<Tile>, sockets: map<nat, nat>)

  /** Where the `n`-th tile opened in this window is placed. */
  function CascadePosition(n: nat): (p: Point)
    ensures p.x == p.y >= 50
  {
    Point(50 + n * 30, 50 + n * 30)
  }

  /** Different tiles of the cascade start at different positions, 30 pixels
      apart diagonally per tile. */
  lemma CascadeIsInjective(m: nat, n: nat)
    ensures CascadePosition(n).x - CascadePosition(m).x == 30 * (n - m)
    ensures m != n ==> CascadePosition(m) != CascadePosition(n)
  {
  }

  /** `add_camera`: registers the accepted connection under the camera id
      (replacing any earlier one), creates a tile, moves it to the cascade
      position for the number of tiles opened so far and appends it. */
  function AddCamera(win: Window, cameraId: nat, connection: nat, initial: Size): (r: Window)
    ensures r.available == win.available
    ensures |r.active| == |win.active| + 1 && r.active[..|win.active|] == win.active
    ensures r.active[|win.active|].cameraId == cameraId
    ensures var g := r.active[|win.active|].widget.geometry;
      g.x == 50 + 30 * |win.active| && g.y == 50 + 30 * |win.active|
    ensures var t := r.active[|win.active|].widget;
      CameraWidget.Valid(t) && !t.dragging && !t.resizing && !t.fullscreen
    ensures cameraId in r.sockets && r.sockets[cameraId] == connection
    ensures forall c :: c in win.sockets && c != cameraId ==> c in r.sockets && r.sockets[c] == win.sockets[c]
    ensures r.sockets.Keys == win.sockets.Keys + {cameraId}
  {
    var widget := CameraWidget.MoveTo(CameraWidget.NewWidget(initial), CascadePosition(|win.active|));
    win.(active := win.active + [Tile(cameraId, widget)], sockets := win.sockets[cameraId := connection])
  }

  /** A request to open a camera: its id, the accepted connection and the
      tile's initial size. */
  datatype Request = Request(cameraId: nat, connection: nat, initial: Size)

  function AddAll(win: Window, requests: seq<Request>): Window
    decreases |requests|
  {
    if requests == [] then win
    else
      var q := requests[0];
      AddAll(AddCamera(win, q.cameraId, q.connection, q.initial), requests[1..])
  }

  /** Opening cameras one after another keeps the earlier tiles and places
      the k-th new tile at the cascade position for its index. */
  lemma {:induction false} AddAllCascades(win: Window, requests: seq<Request>)
    ensures |AddAll(win, requests).active| == |win.active| + |requests|
    ensures AddAll(win, requests).active[..|win.active|] == win.active
    ensures forall k :: 0 <= k < |requests| ==>
      var t := AddAll(win, requests).active[|win.active| + k];
      && t.cameraId == requests[k].cameraId
      && t.widget.geometry.x == CascadePosition(|win.active| + k).x
      && t.widget.geometry.y == CascadePosition(|win.active| + k).y
    decreases |requests|
  {
    if requests != [] {
      var q := requests[0];
      var next := AddCamera(win, q.cameraId, q.connection, q.initial);
      AddAllCascades(next, requests[1..]);
      var r := AddAll(win, requests);
      assert r == AddAll(next, requests[1..]);
      assert r.active[..|next.active|] == next.active;
      assert r.active[..|win.active|] == next.active[..|win.active|];
      forall k | 0 <= k < |requests|
        ensures r.active[|win.active| + k].cameraId == requests[k].cameraId
        ensures r.active[|win.active| + k].widget.geometry.x == CascadePosition(|win.active| + k).x
        ensures r.active[|win.active| + k].widget.geometry.y == CascadePosition(|win.active| + k).y
      {
        if k == 0 {
          assert r.active[|win.active|] == next.active[|win.active|];
        } else {
          assert |win.active| + k == |next.active| + (k - 1);
          assert requests[k] == requests[1..][k - 1];
        }
      }
    }
  }

  /** Opened from an empty window, no two tiles start at the same place. */
  lemma CascadeTilesDistinct(win: Window, requests: seq<Request>, i: nat, j: nat)
    requires win.active == [] && i < j < |requests|
    ensures |AddAll(win, requests).active| == |requests|
    ensures AddAll(win, requests).active[i].widget.geometry != AddAll(win, requests).active[j].widget.geometry
  {
    AddAllCascades(win, requests);
    var a := AddAll(win, requests).active;
    assert a[|win.active| + i].cameraId == requests[i].cameraId;
    assert a[|win.active| + j].cameraId == requests[j].cameraId;
    assert a[|win.active| + i].widget.geometry.x == CascadePosition(i).x;
    assert a[|win.active| + j].widget.geometry.x == CascadePosition(j).x;
  }
}

=== FILE: emotion_detection.dfy ===
/**
 The frame-annotating emotion detector. A person box is taken from the
 full-body detector or, failing that, derived from the first face box; the
 26 category probabilities of the network are thresholded and ranked; the
 box, the valence and at most five emotion lines are drawn.

 The cascade detectors and the networks are not modelled: their outputs are
 inputs (lists of boxes, the 26 probabilities, the valence value).
 */
module EmotionDetection {
  import opened Wrappers
  import opened Geometry
  import opened EmotionRanking

  /** Width of the network's categorical output layer. */
  const HeadWidth: nat := 26

  /** Name of each output of the categorical layer, by index. */
  const CatEmotions: seq<string> := [
    "Affection", "Anger", "Annoyance", "Anticipation", "Aversion",
    "Confidence", "Disapproval", "Disconnection", "Disquietment",
    "Doubt/Confusion", "Embarrassment", "Engagement", "Esteem",
    "Excitement", "Fatigue", "Fear", "Happiness", "Pain",
    "Peace", "Pleasure", "Sadness", "Sensitivity", "Suffering",
    "Surprise", "Sympathy", "Yearning"]

  /** A category is reported when its probability is strictly above this. */
  const Threshold: real := 0.5

  /** The name table has one entry per output of the categorical layer, so
      every index the threshold loop reads is valid in both. */
  lemma CategoryTableMatchesHead()
    ensures |CatEmotions| == HeadWidth
  {
  }

  // ---------------------------------------------------------------------------
  // Person box
  // ---------------------------------------------------------------------------

  /** `int(a / d)` for a positive divisor: Python's `int` of a float
      truncates toward zero, unlike Dafny's `/`, which floors here. */
  function TruncDiv(a: int, d: int): (q: int)
    requires d > 0
    ensures a >= 0 ==> 0 <= q * d <= a < q * d + d
    ensures a < 0 ==> a <= q * d <= 0 && q * d < a + d
  {
    if a >= 0 then
      DivBounds(a, d);
      a / d
    else
      DivBounds(-a, d);
      NegMul((-a) / d, d);
      -((-a) / d)
  }

  lemma NegMul(m: int, d: int)
    ensures (-m) * d == -(m * d)
  {
  }

  /** The body box guessed from a face box: it starts at the bottom of the
      face (not below the frame), reaches a quarter face-width further left
      (not left of the frame), and is 1.5 face-widths wide and 4 face-heights
      tall. */
  function BodyFromFace(face: Rect, frameHeight: int): (body: Rect)
    ensures body.h == 4 * face.h
    ensures body.x >= 0 && body.y <= frameHeight
    ensures body.y == face.y + face.h || body.y == frameHeight
    ensures face.y + face.h <= frameHeight ==> body.y == face.y + face.h
    ensures face.w >= 0 ==> 2 * body.w <= 3 * face.w < 2 * body.w + 2
    ensures face.w >= 0 ==> body.x <= face.x || body.x == 0
    ensures face.w >= 0 && body.x > 0 ==> 4 * (face.x - body.x) <= face.w < 4 * (face.x - body.x) + 4
    ensures face.w >= 0 ==> (body.x > 0 <==> 4 * face.x > face.w)
  {
    var bodyH := 4 * face.h;
    var bodyW := TruncDiv(3 * face.w, 2);
    var bodyX := Max(0, face.x - TruncDiv(face.w, 4));
    var bodyY := Min(frameHeight, face.y + face.h);
    Rect(bodyX, bodyY, bodyW, bodyH)
  }

  /** `detect_person`: the first full-body box if there is one; otherwise
      the body box derived from the first face box; otherwise nothing. */
  function DetectPerson(bodies: seq<Rect>, faces: seq<Rect>, frameHeight: int): (box: Option<Rect>)
    ensures box.None? <==> |bodies| == 0 && |faces| == 0
    ensures |bodies| > 0 ==> box == Some(bodies[0])
    ensures |bodies| == 0 && |faces| > 0 ==> box == Some(BodyFromFace(faces[0], frameHeight))
  {
    if |bodies| > 0 then Some(bodies[0])
    else if |faces| > 0 then Some(BodyFromFace(faces[0], frameHeight))
    else None
  }

  // ---------------------------------------------------------------------------
  // Emotion selection
  // ---------------------------------------------------------------------------

  /** The categories among the first `n` whose probability is above the
      threshold, in category order, as the loop appends them. */
  function Selected(probs: seq<real>, n: nat): (s: seq<Scored>)
    requires n <= |probs|
    ensures IndexOrdered(s)
    ensures forall x :: x in s ==> x.index < n && x.prob == probs[x.index] && x.prob > Threshold
    ensures forall i :: 0 <= i < n && probs[i] > Threshold ==> Scored(i, probs[i]) in s
  {
    if n == 0 then []
    else
      var prefix := Selected(probs, n - 1);
      if probs[n - 1] > Threshold then prefix + [Scored(n - 1, probs[n - 1])] else prefix
  }

  /** The ranked selection of `detect_emotions`: exactly the categories
      whose probability is strictly above 0.5, each with its probability,
      highest first, equal probabilities in category order. */
  function TopEmotions(probs: seq<real>): (top: seq<Scored>)
    requires |probs| == HeadWidth
    ensures forall i :: 0 <= i < HeadWidth ==> (Scored(i, probs[i]) in top <==> probs[i] > Threshold)
    ensures forall x :: x in top ==> x.index < HeadWidth && x.prob == probs[x.index]
    ensures Ranked(top)
  {
    var chosen := Selected(probs, HeadWidth);
    var top := SortByProbDesc(chosen);
    forall x ensures x in top <==> x in chosen {
      assert x in top <==> x in multiset(top);
      assert x in chosen <==> x in multiset(chosen);
    }
    top
  }

  /** The pair `detect_emotions` reports for a selected category. */
  function Named(x: Scored): (pair: (string, real))
    requires x.index < HeadWidth
    ensures pair.0 == CatEmotions[x.index] && pair.1 == x.prob
  {
    (CatEmotions[x.index], x.prob)
  }

  /** Category names are pairwise distinct, so a name identifies its index. */
  lemma NamesDistinct(i: nat, j: nat)
    requires i < HeadWidth && j < HeadWidth && CatEmotions[i] == CatEmotions[j]
    ensures i == j
  {
  }

  /** The (name, probability) pairs of a list of selected categories, in
      the same order. */
  function NameAll(ranked: seq<Scored>): (pairs: seq<(string, real)>)
    requires forall x :: x in ranked ==> x.index < HeadWidth
    ensures |pairs| == |ranked|
    ensures forall k :: 0 <= k < |pairs| ==> pairs[k] == Named(ranked[k])
  {
    seq(|ranked|, k requires 0 <= k < |ranked| => Named(ranked[k]))
  }

  /** A category's pair is listed exactly when the category is, with the
      same probability: names do not collide. */
  lemma NamedExactly(ranked: seq<Scored>, i: nat, p: real)
    requires forall x :: x in ranked ==> x.index < HeadWidth
    requires i < HeadWidth
    ensures (CatEmotions[i], p) in NameAll(ranked) <==> Scored(i, p) in ranked
  {
    var pairs := NameAll(ranked);
    if (CatEmotions[i], p) in pairs {
      var k :| 0 <= k < |pairs| && pairs[k] == (CatEmotions[i], p);
      assert ranked[k] in ranked;
      NamesDistinct(i, ranked[k].index);
      assert ranked[k] == Scored(i, p);
    }
    if Scored(i, p) in ranked {
      var k :| 0 <= k < |ranked| && ranked[k] == Scored(i, p);
      assert pairs[k] == (CatEmotions[i], p);
    }
  }

  /** Every named pair is some category's name with its probability, above
      the threshold. */
  lemma NamedSound(probs: seq<real>, k: nat)
    requires |probs| == HeadWidth
    ensures k < |TopEmotions(probs)| ==> NameAll(TopEmotions(probs))[k].1 > Threshold
    ensures k < |TopEmotions(probs)| ==>
      var i := TopEmotions(probs)[k].index;
      i < HeadWidth && NameAll(TopEmotions(probs))[k] == (CatEmotions[i], probs[i])
  {
    var ranked := TopEmotions(probs);
    if k < |ranked| {
      assert ranked[k] in Selected(probs, HeadWidth) by {
        assert ranked[k] in ranked;
      }
    }
  }

  /** `detect_emotions`' list of (name, probability) pairs: a pair for a
      category is present exactly when its probability exceeds 0.5 (0.5
      itself is not enough), every pair is some category's name with that
      category's probability, and the list is sorted by probability,
      highest first. */
  function DetectEmotions(probs: seq<real>): (top: seq<(string, real)>)
    requires |probs| == HeadWidth
    ensures forall i :: 0 <= i < HeadWidth ==> ((CatEmotions[i], probs[i]) in top <==> probs[i] > Threshold)
    ensures forall k :: 0 <= k < |top| ==> top[k].1 > Threshold
    ensures forall j, k :: 0 <= j < k < |top| ==> top[j].1 >= top[k].1
  {
    var ranked := TopEmotions(probs);
    var top := NameAll(ranked);
    forall i | 0 <= i < HeadWidth
      ensures (CatEmotions[i], probs[i]) in top <==> probs[i] > Threshold
    {
      NamedExactly(ranked, i, probs[i]);
    }
    forall k | 0 <= k < |top|
      ensures top[k].1 > Threshold
    {
      NamedSound(probs, k);
    }
    forall j, k | 0 <= j < k < |top| ensures top[j].1 >= top[k].1 {
      RankedIsNonIncreasing(ranked, j, k);
    }
    top
  }

  /** Each reported pair is the name and probability of the category at the
      same position of the ranked selection. */
  lemma DetectedPairIsCategory(probs: seq<real>, k: nat)
    requires |probs| == HeadWidth
    ensures |DetectEmotions(probs)| == |TopEmotions(probs)|
    ensures k < |DetectEmotions(probs)| ==>
      var i := TopEmotions(probs)[k].index;
      i < HeadWidth && DetectEmotions(probs)[k] == (CatEmotions[i], probs[i])
  {
    NamedSound(probs, k);
  }

  /** Ties between equal probabilities are broken by category index. */
  lemma TiesKeepCategoryOrder(probs: seq<real>, j: nat, k: nat)
    requires |probs| == HeadWidth
    ensures var top := TopEmotions(probs);
      j < k < |top| && top[j].prob == top[k].prob ==> top[j].index < top[k].index
  {
  }

  // ---------------------------------------------------------------------------
  // Drawing
  // ---------------------------------------------------------------------------

  datatype Caption = ValenceCaption(valence: real) | EmotionCaption(name: string, prob: real)

  /** The drawing calls `draw_results` makes on the frame. */
  datatype DrawOp = DrawBox(topLeft: Point, bottomRight: Point) | DrawText(caption: Caption, at: Point)

  /** At most this many emotion lines are drawn. */
  const MaxLines: nat := 5

  /** Vertical distance between emotion lines. */
  const LineStride: int := 20

  /** The emotion lines, the first at `at` and each next one 20 pixels lower. */
  function EmotionLines(emotions: seq<(string, real)>, at: Point): (ops: seq<DrawOp>)
    ensures |ops| == |emotions|
    ensures forall k :: 0 <= k < |ops| ==>
      ops[k] == DrawText(EmotionCaption(emotions[k].0, emotions[k].1), Point(at.x, at.y + 20 * k))
    decreases |emotions|
  {
    if emotions == [] then []
    else
      var first := DrawText(EmotionCaption(emotions[0].0, emotions[0].1), at);
      var rest := EmotionLines(emotions[1..], Point(at.x, at.y + LineStride));
      [first] + rest
  }

  /** `draw_results`: nothing without a box; otherwise the box, the valence
      10 pixels above it, and the first (at most five) emotions as lines
      starting 10 pixels right of and 30 below the box's corner. */
  function DrawResults(bbox: Option<Rect>, emotions: seq<(string, real)>, valence: real): (ops: seq<DrawOp>)
    ensures bbox.None? ==> ops == []
    ensures bbox.Some? ==>
      var b := bbox.value;
      && |ops| == 2 + Min(MaxLines, |emotions|)
      && ops[0] == DrawBox(Point(b.x, b.y), Point(b.x + b.w, b.y + b.h))
      && ops[1] == DrawText(ValenceCaption(valence), Point(b.x, b.y - 10))
      && forall k :: 0 <= k < |ops| - 2 ==>
           ops[2 + k] == DrawText(EmotionCaption(emotions[k].0, emotions[k].1), Point(b.x + 10, b.y + 30 + 20 * k))
  {
    match bbox
    case None => []
    case Some(b) =>
      var shown := if |emotions| <= MaxLines then emotions else emotions[..MaxLines];
      [DrawBox(Point(b.x, b.y), Point(b.x + b.w, b.y + b.h)),
       DrawText(ValenceCaption(valence), Point(b.x, b.y - 10))]
      + EmotionLines(shown, Point(b.x + 10, b.y + 30))
  }

  /** One pass of the detector's main loop on a frame, from the detectors'
      and network's outputs to the drawing calls. Nothing is drawn exactly
      when no person was found; otherwise the box and the valence come first,
      followed by the first (at most five) entries of `detect_emotions`. */
  function Annotate(bodies: seq<Rect>, faces: seq<Rect>, frameHeight: int, probs: seq<real>, valence: real): (ops: seq<DrawOp>)
    requires |probs| == HeadWidth
    ensures ops == [] <==> |bodies| == 0 && |faces| == 0
    ensures ops != [] ==> |ops| == 2 + Min(MaxLines, |DetectEmotions(probs)|)
    ensures forall k :: 2 <= k < |ops| ==>
      && ops[k].DrawText?
      && ops[k].caption == EmotionCaption(DetectEmotions(probs)[k - 2].0, DetectEmotions(probs)[k - 2].1)
  {
    var bbox := DetectPerson(bodies, faces, frameHeight);
    var top := DetectEmotions(probs);
    var ops := DrawResults(bbox, top, valence);
    forall k | 2 <= k < |ops|
      ensures ops[k].DrawText? && ops[k].caption == EmotionCaption(top[k - 2].0, top[k - 2].1)
    {
      var m := k - 2;
      assert ops[2 + m].caption == EmotionCaption(top[m].0, top[m].1);
    }
    ops
  }

  /** Every emotion line drawn for a frame names a category whose
      probability exceeds 0.5, with that probability. */
  lemma DrawnLinesAreAboveThreshold(bodies: seq<Rect>, faces: seq<Rect>, frameHeight: int, probs: seq<real>, valence: real, k: nat)
    requires |probs| == HeadWidth
    ensures 2 <= k < |Annotate(bodies, faces, frameHeight, probs, valence)| ==>
      exists i ::
        && 0 <= i < HeadWidth && probs[i] > Threshold
        && Annotate(bodies, faces, frameHeight, probs, valence)[k].caption == EmotionCaption(CatEmotions[i], probs[i])
  {
    if 2 <= k < |Annotate(bodies, faces, frameHeight, probs, valence)| {
      var top := DetectEmotions(probs);
      DetectedPairIsCategory(probs, k - 2);
      var i := TopEmotions(probs)[k - 2].index;
      assert top[k - 2] == (CatEmotions[i], probs[i]) && top[k - 2].1 > Threshold;
    }
  }

  /** The lines drawn are the most likely emotions: none of the detected
      emotions left off the frame is more likely than one that is drawn. */
  lemma DrawnAreMostLikely(bodies: seq<Rect>, faces: seq<Rect>, frameHeight: int, probs: seq<real>, valence: real, k: nat, m: nat)
    requires |probs| == HeadWidth
    ensures
      var ops := Annotate(bodies, faces, frameHeight, probs, valence);
      2 <= k < |ops| && |ops| - 2 <= m < |DetectEmotions(probs)| ==>
        ops[k].caption.prob >= DetectEmotions(probs)[m].1
  {
    var ops := Annotate(bodies, faces, frameHeight, probs, valence);
    var top := DetectEmotions(probs);
    if 2 <= k < |ops| && |ops| - 2 <= m < |top| {
      assert k - 2 < m;
      assert top[k - 2].1 >= top[m].1;
    }
  }
}

=== FILE: emotion_ranking.dfy ===
/**
 Ranking of detected emotion categories: the list of (category, probability)
 pairs, built in category order, is sorted by probability, highest first,
 with a stable sort, so equal probabilities keep category order.
 */
module EmotionRanking {

  /** A category (by its index in the category table) with its probability. */
  datatype Scored = Scored(index: nat, prob: real)

  /** `a` is listed before `b`: a higher probability first, and among equal
      probabilities the lower category index first. */
  predicate Before(a: Scored, b: Scored) {
    a.prob > b.prob || (a.prob == b.prob && a.index < b.index)
  }

  /** Every earlier entry comes before every later one. */
  predicate Ranked(s: seq<Scored>) {
    forall i, j :: 0 <= i < j < |s| ==> Before(s[i], s[j])
  }

  /** Category indices strictly increase along the list. */
  predicate IndexOrdered(s: seq<Scored>) {
    forall i, j :: 0 <= i < j < |s| ==> s[i].index < s[j].index
  }

  /** Everything after the head of a ranked list comes after the head. */
  lemma HeadBefore(s: seq<Scored>)
    requires Ranked(s) && s != []
    ensures forall y :: y in s[1..] ==> Before(s[0], y)
  {
    forall y | y in s[1..] ensures Before(s[0], y) {
      var m :| 0 <= m < |s[1..]| && s[1..][m] == y;
      assert s[m + 1] == y;
    }
  }

  /** A head that comes before every element of a ranked tail keeps it ranked. */
  lemma ConsRanked(h: Scored, t: seq<Scored>)
    requires Ranked(t)
    requires forall y :: y in t ==> Before(h, y)
    ensures Ranked([h] + t)
  {
    var r := [h] + t;
    forall i, j | 0 <= i < j < |r| ensures Before(r[i], r[j]) {
      if i == 0 {
        assert r[j] == t[j - 1];
        assert r[j] in t;
      } else {
        assert r[i] == t[i - 1] && r[j] == t[j - 1];
      }
    }
  }

  /** Inserts `x`, whose index exceeds every index already present, after all
      entries whose probability is at least its own. */
  function Insert(x: Scored, s: seq<Scored>): (r: seq<Scored>)
    requires Ranked(s)
    requires forall y :: y in s ==> y.index < x.index
    ensures multiset(r) == multiset(s) + multiset{x}
    ensures Ranked(r)
    decreases |s|
  {
    if s == [] then [x]
    else
      assert s == [s[0]] + s[1..];
      HeadBefore(s);
      if s[0].prob >= x.prob then
        var rest := Insert(x, s[1..]);
        forall y | y in rest ensures Before(s[0], y) {
          assert y in multiset(rest);
        }
        ConsRanked(s[0], rest);
        [s[0]] + rest
      else
        ConsRanked(x, s);
        [x] + s
  }

  /** Splitting off the last entry of a list in category order: the rest is
      still in category order and every index in it is below the last one. */
  lemma SplitLast(s: seq<Scored>)
    requires IndexOrdered(s) && s != []
    ensures IndexOrdered(s[..|s| - 1])
    ensures forall y :: y in s[..|s| - 1] ==> y.index < s[|s| - 1].index
    ensures multiset(s) == multiset(s[..|s| - 1]) + multiset{s[|s| - 1]}
  {
    assert s == s[..|s| - 1] + [s[|s| - 1]];
  }

  /** `list.sort(key=prob, reverse=True)` on a list in category order: a
      permutation of the input, highest probability first, ties in category
      order (Python's sort is stable, also when reversed). */
  function SortByProbDesc(s: seq<Scored>): (r: seq<Scored>)
    requires IndexOrdered(s)
    ensures multiset(r) == multiset(s)
    ensures Ranked(r)
    decreases |s|
  {
    if s == [] then []
    else
      SplitLast(s);
      var init := s[..|s| - 1];
      var sorted := SortByProbDesc(init);
      forall y | y in sorted ensures y.index < s[|s| - 1].index {
        assert y in multiset(sorted);
        assert y in multiset(init);
      }
      Insert(s[|s| - 1], sorted)
  }

  lemma TailRanked(s: seq<Scored>)
    requires Ranked(s) && s != []
    ensures Ranked(s[1..])
  {
    forall p, q | 0 <= p < q < |s[1..]| ensures Before(s[1..][p], s[1..][q]) {
      assert s[1..][p] == s[p + 1] && s[1..][q] == s[q + 1];
    }
  }

  lemma TailMultiset(s: seq<Scored>)
    requires s != []
    ensures multiset(s[1..]) == multiset(s) - multiset{s[0]}
  {
    assert s == [s[0]] + s[1..];
  }

  /** Only the head of a ranked list can come before its head. */
  lemma HeadComesFirst(s: seq<Scored>, i: nat)
    requires Ranked(s) && i < |s|
    ensures i == 0 || Before(s[0], s[i])
  {
  }

  /** No two entries each come before the other. */
  lemma BeforeAsymmetric(x: Scored, y: Scored)
    ensures !(Before(x, y) && Before(y, x))
  {
  }

  /** Two ranked arrangements of the same entries start with the same entry:
      the one that comes before all others. */
  lemma SameHead(a: seq<Scored>, b: seq<Scored>)
    requires Ranked(a) && Ranked(b) && multiset(a) == multiset(b) && a != [] && b != []
    ensures a[0] == b[0]
  {
    assert a[0] in multiset(b);
    assert b[0] in multiset(a);
    var i :| 0 <= i < |b| && b[i] == a[0];
    var j :| 0 <= j < |a| && a[j] == b[0];
    HeadComesFirst(b, i);
    HeadComesFirst(a, j);
    BeforeAsymmetric(a[0], b[0]);
  }

  /** A ranked list is determined by its elements: any two ranked
      arrangements of the same entries are equal. So every correct stable
      descending sort of the same input gives the same list as
      `SortByProbDesc`. */
  lemma {:induction false} RankedIsUnique(a: seq<Scored>, b: seq<Scored>)
    requires Ranked(a) && Ranked(b) && multiset(a) == multiset(b)
    ensures a == b
    decreases |a|
  {
    assert |a| == |multiset(a)| == |multiset(b)| == |b|;
    if a != [] {
      SameHead(a, b);
      TailMultiset(a);
      TailMultiset(b);
      TailRanked(a);
      TailRanked(b);
      RankedIsUnique(a[1..], b[1..]);
      assert a == [a[0]] + a[1..] && b == [b[0]] + b[1..];
    }
  }

  /** Ranked lists are sorted by probability, highest first. */
  lemma RankedIsNonIncreasing(s: seq<Scored>, i: nat, j: nat)
    requires Ranked(s) && i <= j < |s|
    ensures s[i].prob >= s[j].prob
  {
  }
}

=== FILE: frame_relay.dfy ===
/**
 One tick of a camera tile's frame pipeline. A captured frame is sent to the
 frame-processing peer, whose reply is read with a fixed buffer size and
 reinterpreted as a 480 x 640 x 3 array of bytes (row-major, three channels
 per pixel). The decoded frame is resized to the label, scaled with Qt's
 keep-aspect-ratio rule and drawn centred on a canvas the size of the label.

 The capture device, the socket, OpenCV's resize and Qt's painting are not
 modelled: their results are inputs (whether a frame was read, the reply
 bytes, the label size).
 */
module FrameRelay {
  import opened Wrappers
  import opened Geometry

  type Byte = b: int | 0 <= b < 256

  /** The reply is reshaped to (Rows, Cols, Channels). */
  const Rows: nat := 480
  const Cols: nat := 640
  const Channels: nat := 3

  /** Bytes in one row of the decoded frame. */
  const RowBytes: nat := Cols * Channels

  /** The buffer size passed to `recv` for one reply. */
  const ReplySize: nat := 230400 * 4

  /** Bytes in one decoded frame. */
  const FrameBytes: nat := Rows * Cols * Channels

  /** The receive buffer holds exactly one decoded frame. */
  lemma ReplyHoldsOneFrame()
    ensures ReplySize == FrameBytes == Rows * Cols * Channels
    ensures RowBytes == Cols * Channels
  {
  }

  /** A frame as a nested array indexed [row][column][channel]. */
  type Image = seq<seq<seq<Byte>>>

  predicate Shaped(img: Image) {
    && |img| == Rows
    && (forall r :: 0 <= r < |img| ==> |img[r]| == Cols)
    && (forall r, c :: 0 <= r < |img| && 0 <= c < |img[r]| ==> |img[r][c]| == Channels)
  }

  /** Row-major position of channel `k` of pixel (`r`, `c`). */
  function Offset(r: nat, c: nat, k: nat): (i: nat)
    requires r < Rows && c < Cols && k < Channels
    ensures i < FrameBytes
  {
    (r * Cols + c) * Channels + k
  }

  /** The position determines the row, column and channel: `Offset` is
      injective and is undone by division and remainder. */
  lemma OffsetSplit(r: nat, c: nat, k: nat)
    requires r < Rows && c < Cols && k < Channels
    ensures Offset(r, c, k) / RowBytes == r
    ensures (Offset(r, c, k) % RowBytes) / Channels == c
    ensures Offset(r, c, k) % Channels == k
  {
    var i := Offset(r, c, k);
    assert i == r * RowBytes + (c * Channels + k);
    assert 0 <= c * Channels + k < RowBytes;
    assert i == (r * Cols + c) * Channels + k;
  }

  /** Every position in the buffer is the offset of some row, column and
      channel. */
  lemma OffsetCovers(i: nat)
    requires i < FrameBytes
    ensures i / RowBytes < Rows && (i % RowBytes) / Channels < Cols && i % Channels < Channels
    ensures Offset(i / RowBytes, (i % RowBytes) / Channels, i % Channels) == i
  {
    var r, m := i / RowBytes, i % RowBytes;
    assert i == r * RowBytes + m;
    var c, k := m / Channels, m % Channels;
    assert m == c * Channels + k;
    assert i % Channels == k by {
      assert i == (r * Cols + c) * Channels + k;
    }
  }

  /** `np.frombuffer(reply, uint8).reshape((480, 640, 3))`: succeeds exactly
      when the reply holds one frame's worth of bytes, and then reads channel
      `k` of pixel (`r`, `c`) at row-major offset (r * 640 + c) * 3 + k. */
  function Decode(bytes: seq<Byte>): (img: Option<Image>)
    ensures img.Some? <==> |bytes| == FrameBytes
    ensures img.Some? ==> Shaped(img.value)
    ensures img.Some? ==> forall r, c, k :: 0 <= r < Rows && 0 <= c < Cols && 0 <= k < Channels ==>
      img.value[r][c][k] == bytes[Offset(r, c, k)]
  {
    if |bytes| != FrameBytes then None
    else
      Some(seq(Rows, r requires 0 <= r < Rows =>
             seq(Cols, c requires 0 <= c < Cols =>
               seq(Channels, k requires 0 <= k < Channels => bytes[Offset(r, c, k)]))))
  }

  /** `frame.tobytes()` for a 480 x 640 x 3 frame: the row-major byte string. */
  function Encode(img: Image): (bytes: seq<Byte>)
    requires Shaped(img)
    ensures |bytes| == FrameBytes
  {
    seq(FrameBytes, i requires 0 <= i < FrameBytes =>
      OffsetCovers(i);
      img[i / RowBytes][(i % RowBytes) / Channels][i % Channels])
  }

  /** Decoding a frame's byte string gives the frame back. */
  lemma DecodeEncode(img: Image)
    requires Shaped(img)
    ensures Decode(Encode(img)) == Some(img)
  {
    var bytes := Encode(img);
    var d := Decode(bytes).value;
    forall r, c, k | 0 <= r < Rows && 0 <= c < Cols && 0 <= k < Channels
      ensures d[r][c][k] == img[r][c][k]
    {
      OffsetSplit(r, c, k);
    }
    forall r | 0 <= r < Rows ensures d[r] == img[r] {
      forall c | 0 <= c < Cols ensures d[r][c] == img[r][c] {
        assert |d[r][c]| == |img[r][c]| == Channels;
      }
      assert |d[r]| == |img[r]| == Cols;
    }
    assert |d| == |img| == Rows;
    assert d == img;
  }

  /** Encoding a decoded reply gives the reply back: nothing is lost. */
  lemma EncodeDecode(bytes: seq<Byte>)
    requires |bytes| == FrameBytes
    ensures Encode(Decode(bytes).value) == bytes
  {
    var e := Encode(Decode(bytes).value);
    forall i | 0 <= i < FrameBytes ensures e[i] == bytes[i] {
      OffsetCovers(i);
    }
  }

  /** Qt's `QSize::scaled(target, Qt::KeepAspectRatio)`: the largest size
      with the source image's aspect ratio (up to integer rounding) that fits in the
      target. The full target height is kept exactly when the width it
      implies, rounded down, still fits. */
  function ScaleKeepAspect(src: Size, target: Size): (r: Size)
    requires src.w > 0 && src.h > 0 && target.w >= 0 && target.h >= 0
    ensures 0 <= r.w <= target.w && 0 <= r.h <= target.h
    ensures r.w == target.w || r.h == target.h
    ensures r.h == target.h <==> target.h * src.w < (target.w + 1) * src.h
    ensures r.h == target.h ==> r.w * src.h <= target.h * src.w < r.w * src.h + src.h
    ensures r.h != target.h ==> r.w == target.w && r.h * src.w <= target.w * src.h < r.h * src.w + src.w
    ensures src == target ==> r == target
  {
    var rw := target.h * src.w / src.h;
    HeightBound(src, target);
    KeepsHeight(src, target);
    if rw <= target.w then
      if src == target then
        MulDivCancel(target.w, target.h);
        Size(rw, target.h)
      else
        Size(rw, target.h)
    else
      WidthBound(src, target);
      Size(target.w, target.w * src.h / src.w)
  }

  /** `QPixmap::scaled(w, h, Qt::KeepAspectRatio, ...)`: a null source or an
      empty target gives a null (0 x 0) pixmap; otherwise the keep-aspect
      size with each side raised to at least one pixel, so a very thin
      source still gives a visible picture. */
  function PixmapScaled(src: Size, target: Size): (r: Size)
    requires src.w >= 0 && src.h >= 0
    ensures r == Size(0, 0) <==> src.w == 0 || src.h == 0 || target.w <= 0 || target.h <= 0
    ensures r != Size(0, 0) ==> 1 <= r.w <= target.w && 1 <= r.h <= target.h
    ensures r != Size(0, 0) ==> r.w == target.w || r.h == target.h
    ensures r != Size(0, 0) ==>
      var s := ScaleKeepAspect(src, target);
      && (s.w > 0 ==> r.w == s.w) && (s.w == 0 ==> r.w == 1)
      && (s.h > 0 ==> r.h == s.h) && (s.h == 0 ==> r.h == 1)
    ensures target.w > 0 && target.h > 0 && src == target ==> r == target
  {
    if src.w == 0 || src.h == 0 || target.w <= 0 || target.h <= 0 then Size(0, 0)
    else
      var s := ScaleKeepAspect(src, target);
      Size(Max(1, s.w), Max(1, s.h))
  }

  /** The height-bound width is the source's aspect ratio applied to the
      target's height, rounded down. */
  lemma HeightBound(src: Size, target: Size)
    requires src.w > 0 && src.h > 0 && target.w >= 0 && target.h >= 0
    ensures var rw := target.h * src.w / src.h;
      0 <= rw && rw * src.h <= target.h * src.w < rw * src.h + src.h
  {
    MulNonNeg(target.h, src.w);
    DivBounds(target.h * src.w, src.h);
  }

  /** The height-bound width fits exactly when the target's height times the
      source's width falls short of one more column's worth. */
  lemma KeepsHeight(src: Size, target: Size)
    requires src.w > 0 && src.h > 0 && target.w >= 0 && target.h >= 0
    ensures target.h * src.w / src.h <= target.w <==> target.h * src.w < (target.w + 1) * src.h
  {
    var a := target.h * src.w;
    MulNonNeg(target.h, src.w);
    var q := a / src.h;
    DivBounds(a, src.h);
    assert (q + 1) * src.h == q * src.h + src.h;
    MulMonoWhen(q + 1, target.w + 1, src.h);
    MulMonoWhen(target.w + 1, q, src.h);
  }

  lemma MulDivCancel(a: int, b: int)
    requires b > 0
    ensures b * a / b == a
  {
    var q := b * a / b;
    var rem := b * a % b;
    assert b * a == b * q + rem && 0 <= rem < b;
    assert b * (a - q) == rem;
    if a - q >= 1 {
      MulMono(1, a - q, b);
    } else if a - q <= -1 {
      MulMono(a - q, -1, b);
    }
  }

  /** When the height-bound width overflows the target, the width-bound
      height is the aspect ratio applied to the target's width, rounded down,
      and fits strictly inside the target's height. */
  lemma WidthBound(src: Size, target: Size)
    requires src.w > 0 && src.h > 0 && target.w >= 0 && target.h >= 0
    requires target.h * src.w / src.h > target.w
    ensures var rh := target.w * src.h / src.w;
      && 0 <= rh < target.h
      && rh * src.w <= target.w * src.h < rh * src.w + src.w
  {
    var a, b := target.h * src.w, target.w * src.h;
    MulNonNeg(target.h, src.w);
    MulNonNeg(target.w, src.h);
    var q, p := a / src.h, b / src.w;
    DivBounds(a, src.h);
    DivBounds(b, src.w);
    MulMono(target.w + 1, q, src.h);
    assert (target.w + 1) * src.h == b + src.h;
    assert b < q * src.h <= a;
    MulMonoWhen(target.h, p, src.w);
  }

  lemma MulMonoWhen(a: int, b: int, c: int)
    requires c >= 0
    ensures a <= b ==> a * c <= b * c
  {
    if a <= b {
      MulMono(a, b, c);
    }
  }

  lemma MulNonNeg(a: int, b: int)
    requires a >= 0 && b >= 0
    ensures a * b >= 0
  {
  }

  lemma MulMono(a: int, b: int, c: int)
    requires a <= b && c >= 0
    ensures a * c <= b * c
  {
  }

  /** Where the scaled picture is drawn: `(W - w) // 2`, `(H - h) // 2`.
      Dafny's `/` by a positive divisor floors like Python's `//`. When the
      picture fits, it lies inside the canvas with margins that differ by at
      most one pixel. */
  function CenterOffsets(canvas: Size, picture: Size): (p: Point)
    ensures picture.w <= canvas.w ==>
      0 <= p.x && p.x + picture.w <= canvas.w && 0 <= (canvas.w - (p.x + picture.w)) - p.x <= 1
    ensures picture.h <= canvas.h ==>
      0 <= p.y && p.y + picture.h <= canvas.h && 0 <= (canvas.h - (p.y + picture.h)) - p.y <= 1
    ensures picture.w > canvas.w ==> p.x < 0
    ensures picture.h > canvas.h ==> p.y < 0
    ensures 2 * p.x <= canvas.w - picture.w < 2 * p.x + 2
    ensures 2 * p.y <= canvas.h - picture.h < 2 * p.y + 2
  {
    Point((canvas.w - picture.w) / 2, (canvas.h - picture.h) / 2)
  }

  /** The result of one tick of `update_frame`. A reply of the wrong size
      makes the reshape raise a ValueError that `update_frame` does not
      catch: it escapes the timer slot, nothing is drawn, and what follows
      (under PyQt5's default handling, the application aborts) is outside
      this model. */
  datatype FrameOutcome =
    | NoFrame
    | BadReply
    | Shown(image: Image, picture: Size, origin: Point)

  /** One tick of `update_frame`, given whether the capture device is open,
      whether a frame was read, the peer's reply and the label's size. The
      decoded frame is first resized to the label, so keep-aspect scaling
      leaves it at the label's size and it is drawn at the canvas origin. */
  function UpdateFrame(isOpen: bool, grabbed: bool, reply: seq<Byte>, target: Size): (o: FrameOutcome)
    requires target.w > 0 && target.h > 0
    ensures o.NoFrame? <==> !(isOpen && grabbed)
    ensures o.BadReply? <==> isOpen && grabbed && |reply| != FrameBytes
    ensures o.Shown? ==> Decode(reply) == Some(o.image) && Shaped(o.image)
    ensures o.Shown? ==> o.picture == target && o.origin == Point(0, 0)
  {
    if !(isOpen && grabbed) then NoFrame
    else
      match Decode(reply)
      case None => BadReply
      case Some(img) =>
        // cv2.resize(frame, (target.w, target.h)) makes the frame label-sized.
        var resized := target;
        var picture := PixmapScaled(resized, target);
        Shown(img, picture, CenterOffsets(target, picture))
  }
}

=== FILE: geometry.dfy ===
/**
 Integer geometry shared by the camera widget, the frame pipeline and the
 person detector: Qt's QPoint/QSize/QRect and OpenCV's (x, y, w, h) boxes.
 */
module Geometry {

  datatype Point = Point(x: int, y: int)

  datatype Size = Size(w: int, h: int)

  /** A rectangle by its top-left corner and its extent, as QRect(x, y, w, h). */
  datatype Rect = Rect(x: int, y: int, w: int, h: int) {

    function Extent(): Size { Size(w, h) }

    /** QRect::contains(point) with proper == false: the edges belong to the
        rectangle, so x ranges over left() .. left() + width() - 1. */
    predicate Contains(p: Point) {
      x <= p.x <= x + w - 1 && y <= p.y <= y + h - 1
    }

    /** QRect::isNull: both width and height are zero. */
    predicate IsNull() { w == 0 && h == 0 }
  }

  /** `max(lo, min(hi, v))` on integers. */
  function Clamp(lo: int, hi: int, v: int): (r: int)
    requires lo <= hi
    ensures lo <= r <= hi
    ensures lo <= v <= hi ==> r == v
    ensures v < lo ==> r == lo
    ensures v > hi ==> r == hi
  {
    Max(lo, Min(hi, v))
  }

  function Min(a: int, b: int): int { if a <= b then a else b }

  function Max(a: int, b: int): int { if a >= b then a else b }

  /** Euclidean division by a positive divisor brackets the dividend:
      Python's `//` and Dafny's `/` agree here. */
  lemma DivBounds(n: int, d: int)
    requires n >= 0 && d > 0
    ensures 0 <= (n / d) * d <= n < (n / d) * d + d
  {
    assert n == (n / d) * d + n % d;
    assert n / d >= 0;
  }
}

=== FILE: wrappers.dfy ===
/** Option type, used where the Python code returns `None`. */
module Wrappers {

  datatype Option<+T> = None | Some(value: T)
}
